=== FILE: README.md ===
# StarView rating arithmetic in Dafny

StarView provides three star controls for UIKit:

- `UIRatingView` is an interactive row of stars. An integer `progress` between `minimumValue` and `maximumValue` sets how many stars are filled, and the user sets it by touching or dragging across the row.
- `UIScoreView` is a read-only row of full stars. Each star carries a score and a title supplied by an optional delegate.
- `UIStarView` is a single star, filled up to a fraction `progress`.

This project models the arithmetic around the drawing code and proves properties of it:

- how `returnStarRating` clamps `progress` and derives the star rating from it;
- how `draw` splits the rating into complete, partial and empty stars and lays out their slots;
- the clip rectangle through which a star is painted partially;
- the touch-to-progress mapping of `updateProgress`, with its half-star and 0.9 snapping rules;
- the touch handlers and their hit test;
- the score view's slots, labels, height constraint and delegate defaults;
- the preferred sizes of the views.

`CGFloat` is modelled as exact `real`. A `CGRect`'s `width` and `height` properties report the standardized, never negative size (`Rect.Width()`, `Rect.Height()`), while `size.width` and `size.height` keep their sign (the `Rect` fields). The model reads whichever of the two the code reads. Swift's `Int(x)` is truncation toward zero (`SwiftNumeric.Trunc`). Swift's `Int` division is truncating division (`SwiftNumeric.TruncDiv`). Every view is an immutable record, and each operation is a pure function, or a method that returns the new view and what it draws.

Modules and files:

| file | module | models |
|---|---|---|
| `swift_numeric.dfy` | `SwiftNumeric` | `Int(_)` truncation and `Int` division |
| `options.dfy` | `Options` | optional values (the score view's delegate, a non-finite rating) |
| `geometry.dfy` | `Geometry` | `CGRect`/`CGPoint`/`CGSize`, `contains`, and the partial-fill clip rectangle shared by all star views |
| `decimal.dfy` | `Decimal` | the decimal text of a score, with a parser for the round trip |
| `rating_view.dfy` | `RatingView` | `UIRatingView`: clamp, rating, star counts, slot layout, `draw` |
| `rating_input.dfy` | `RatingInput` | `UIRatingView`: `updateProgress`, `touches*`, `hitTest` |
| `star_view.dfy` | `StarView` | `UIStarView`: clip rectangle and preferred size |
| `score_view.dfy` | `ScoreView` | `UIScoreView`: slots, labels, height constraint, delegate defaults |

Three behaviours of the code that are easy to misread:

- The step per star is `maximumValue / starCount` (StarView/UIRatingView.swift:174 and :202), not `(maximumValue - minimumValue) / starCount`. The minimum plays no part in it.
- `updateProgress` truncates `(whole + fraction) * stepPerStar` with `Int(_)` and does not clamp the result (StarView/UIRatingView.swift:227). A touch can set `progress` below a positive `minimumValue`. The value is clamped only when the rating is next read.
- A touch exactly on the right edge of the bounds is outside the half-open hit-test box. It is ignored and does not saturate to the maximum (`RatingInput.RightEdgeTouchIgnored`).

## Model

| member | source | states |
|---|---|---|
| SwiftNumeric.Trunc | StarView/UIRatingView.swift:50 | `Int(x)` is the integer between 0 and x within distance 1 of x (rounding toward zero); for x >= 0 it is the floor |
| SwiftNumeric.TruncFrac | StarView/UIRatingView.swift:53 | the leftover `x - Int(x)` lies in [0, 1) for x >= 0 and in (-1, 0] for x < 0, and adds back to x |
| SwiftNumeric.TruncDiv | StarView/UIRatingView.swift:174 | Swift's `Int` division `a / b`, rounding toward zero, characterised by `SwiftNumeric.TruncDivRemainder` |
| SwiftNumeric.TruncDivRemainder | StarView/UIRatingView.swift:174 | Swift `Int` division: the remainder `a - b*q` is smaller than the divisor in magnitude and has the sign of the dividend |
| SwiftNumeric.TruncMonotone | StarView/UIRatingView.swift:199 | `Int(_)` truncation is monotone |
| Geometry.Rect.Width | StarView/UIRatingView.swift:66 | `CGRect.width` is the standardized width: maxX - minX, never negative, and equal to `size.width` when that is nonnegative |
| Geometry.Rect.Height | StarView/UIScoreView.swift:189 | `CGRect.height` is the standardized height: maxY - minY, never negative, and equal to `size.height` when that is nonnegative |
| Geometry.Rect.Contains | StarView/UIRatingView.swift:290-298 | `CGRect.contains`: the point lies in the half-open box [minX, maxX) x [minY, maxY); `Geometry.ContainsHasArea` and `RatingInput.RightEdgeTouchIgnored` state its consequences |
| Geometry.ContainsHasArea | StarView/UIRatingView.swift:290-298 | a rectangle that passes the half-open `contains` test for some point has nonzero width and height |
| Geometry.FillClip | StarView/UIRatingView.swift:144-146 | for a slot whose width is read as `frameWidth`, the clip is the right-hand strip: same y and height as the slot, its right edge at `x + frameWidth`, starting `progress * frameWidth` in; progress 0 gives the slot with that width, progress 1 an empty strip at the right edge |
| Geometry.FillClipShrinks | StarView/UIRatingView.swift:144-146 | for a nonnegative width (which `frame.width` always is), a larger fill fraction gives a clip that starts no further left and is no wider |
| Geometry.FillClipWithinFrame | StarView/UIRatingView.swift:144-146 | for a nonnegative width and a fill in [0, 1], the clip starts at or right of the frame's x and its width lies in [0, width] |
| Geometry.FillClipUnclamped | StarView/UIRatingView.swift:140-146 | for a positive width the fraction is not clamped: above 1 the clip width is negative; below 0 the clip starts left of the slot and is wider than it |
| RatingView.DefaultView | StarView/UIRatingView.swift:14-26 | a new view has height 44, interaction off, 5 stars, spacing 0, values from 0 to 10 and progress 0 |
| RatingView.IntrinsicContentSize | StarView/UIRatingView.swift:32-35 | the preferred size is `height` tall and `starCount * (height + starSpacing)` wide, which is nonnegative for a nonnegative count and slot pitch; `RatingView.RowSpansIntrinsicWidth` relates it to the drawn row |
| RatingView.StepPerStar | StarView/UIRatingView.swift:174 | the step `maximumValue / starCount` in truncating division, characterised by `RatingView.StepPerStarQuotient` |
| RatingView.StepPerStarQuotient | StarView/UIRatingView.swift:174 | the step is the truncated quotient `maximumValue / starCount`: `starCount * step` misses `maximumValue` by less than one `starCount`, on the side of zero |
| RatingView.ClampProgress | StarView/UIRatingView.swift:176-183 | for a nonempty range the clamped progress lies in [minimumValue, maximumValue]; an in-range progress is unchanged; below the range gives the minimum, above it the maximum |
| RatingView.ClampIdempotent | StarView/UIRatingView.swift:176-183 | clamping a clamped progress changes nothing when minimumValue <= maximumValue |
| RatingView.StarRating | StarView/UIRatingView.swift:185 | the rating times the step gives back the clamped progress |
| RatingView.Quotient | StarView/UIRatingView.swift:185 | `CGFloat(progress) / CGFloat(stepPerStar)` for a nonzero step: the quotient times the step gives back the progress (`RatingView.MeasuresProgress`) |
| RatingView.ReturnStarRating | StarView/UIRatingView.swift:170-190 | `returnStarRating` changes only `progress`, to its clamped value; it has no finite rating exactly when the step is 0, and otherwise the rating times the step is the stored progress |
| RatingView.Partition | StarView/UIRatingView.swift:50-60 | the complete, partial and empty counts add up to starCount; there is at most one partial star, and a partial star always has a fill strictly between 0 and 1, and for a nonnegative rating there is one exactly when the rating has a fractional part; for a rating in [0, starCount] no count is negative |
| RatingView.DrawableIffRatingInRange | StarView/UIRatingView.swift:50-81 | all three star loops have valid ranges if and only if the rating lies in (-1, starCount] |
| RatingView.StarSlot.Clip | StarView/UIRatingView.swift:144-146 | the clip `drawStar` computes for a slot ends one standardized slot width right of the slot's origin; for a fill in [0, 1] it starts at or right of the origin and is no wider than the slot |
| RatingView.LayOutSlots | StarView/UIRatingView.swift:44-81 | the three loops produce complete + partial + empty slots; slot k is the drawing rectangle with its width set to `height` (y and height kept), at x = rect.x + spacing/2 + k*(abs(height) + spacing) because each loop advances by the standardized `frame.width`; the slots are filled 1, then with the partial fill, then 0 |
| RatingView.FillsNonIncreasing | StarView/UIRatingView.swift:62-81 | when the partial fill lies in [0, 1], fills never increase from left to right |
| RatingView.SlotsDoNotOverlap | StarView/UIRatingView.swift:66-80 | with a nonnegative spacing and any sign of `height`, each standardized slot ends at least one spacing before every later slot begins |
| RatingView.ClipEndsBeforeNextSlot | StarView/UIRatingView.swift:66-80 | the unfilled strip of a slot, measured with the slot's standardized width, ends exactly one spacing before the next slot's origin (its left edge when `height` >= 0; for a negative `height` the next slot's box starts abs(height) further left); for a fill in [0, 1] it starts at or right of the slot's origin |
| RatingView.RowSpansIntrinsicWidth | StarView/UIRatingView.swift:32-80 | the row, with a half spacing on each side, spans `starCount * (abs(height) + starSpacing)`; this is exactly the intrinsic width when `height` >= 0, and wider than it when `height` < 0 |
| RatingView.TotalFillIsRating | StarView/UIRatingView.swift:48-81 | for a rating in [0, starCount], the fills of the row laid out from it add up to the rating |
| RatingView.DrawAsWritten | StarView/UIRatingView.swift:37-82 | `draw` as written, where it does not trap: the clamped view and starCount slots laid out from the rating's complete, partial and empty counts |
| RatingView.UnevenMaximumBreaksRow | StarView/UIRatingView.swift:50-76 | with maximumValue 10 and 3 stars, full progress gives the rating 10/3 and the counts 3, 1 and -1, so the empty-star range traps |
| RatingView.CappedAgreesWhereDrawable | StarView/UIRatingView.swift:50-81 | for a rating in (-1, starCount], which is exactly where `draw` as written does not trap, capping the rating to [0, starCount] changes neither the counts nor the partial fill |
| RatingView.Draw | StarView/UIRatingView.swift:37-82 | `draw` with the rating capped to [0, starCount]: the clamped view and exactly starCount slots; fills lie in [0, 1], never increase left to right, and add up to the capped rating |
| RatingView.EvenMaximumIsDrawable | StarView/UIRatingView.swift:170-185 | if starCount is positive, divides maximumValue and is at most maximumValue, and 0 <= minimumValue <= maximumValue, then the step is nonzero, the rating lies in [0, starCount] and `draw` as written does not trap |
| RatingInput.SnapHalf | StarView/UIRatingView.swift:204-219 | the half-star rule leaves a fraction of 0 or 1/2 and advances the whole part by at most one star |
| RatingInput.SnapHalfNearest | StarView/UIRatingView.swift:204-219 | for a fraction in [0, 1), the half-star rule rounds the touch offset to the nearest half star, with halves rounding up |
| RatingInput.SnapNinety | StarView/UIRatingView.swift:221-225 | the blanket rule leaves a fraction of at most 0.9; a fraction above 0.9 becomes the next whole star; any other fraction is kept |
| RatingInput.NinetyIdleAfterHalf | StarView/UIRatingView.swift:204-225 | after the half-star rule, the 0.9 rule never fires |
| RatingInput.ProgressForDistance | StarView/UIRatingView.swift:197-227 | the whole threshold tree of `updateProgress` for a distance in stars, characterised by `RatingInput.HalfStarProgress` (step 2), `RatingInput.WholeStepProgress` (other steps) and `RatingInput.ProgressMonotone` |
| RatingInput.Distance | StarView/UIRatingView.swift:194-197 | the touch offset in stars: the distance times the star width (standardized bounds width over starCount) gives back x, and it is nonnegative for x >= 0 and a positive starCount; `RatingInput.UpdateProgressMonotone` and `RatingInput.TouchInBoundsWithinMaximum` build on it |
| RatingInput.UpdateProgress | StarView/UIRatingView.swift:192-230 | a touch at x = 0 sets progress 0 |
| RatingInput.HalfStarProgress | StarView/UIRatingView.swift:197-227 | with two steps per star and a nonnegative distance, the new progress is twice the distance rounded to the nearest half star (so 2k or 2k+1) |
| RatingInput.WholeStepProgress | StarView/UIRatingView.swift:221-227 | for any other step, a touch in the last tenth of a star completes the star (`(floor + 1) * step`); any other touch gives `Int(distance * step)` |
| RatingInput.WholeStepBounds | StarView/UIRatingView.swift:221-227 | for a step other than 2, the progress lies between the whole stars passed and the next whole star, in steps |
| RatingInput.ProgressMonotone | StarView/UIRatingView.swift:197-227 | for a nonnegative step, a touch further right never gives a smaller progress |
| RatingInput.ProgressBelowFullRow | StarView/UIRatingView.swift:195-227 | for a nonnegative step, a distance in [0, starCount) gives a progress in [0, starCount * step] |
| RatingInput.TouchInBoundsWithinMaximum | StarView/UIRatingView.swift:192-230 | for a positive starCount, a positive bounds width and a nonnegative maximumValue, a touch in [0, width) never sets progress below 0 or above `starCount * stepPerStar`, which is at most maximumValue (no clamping is needed for that bound) |
| RatingInput.UpdateProgressMonotone | StarView/UIRatingView.swift:194-227 | for a nonnegative step, moving a touch right from x >= 0 never lowers the progress it sets |
| RatingInput.HitTest | StarView/UIRatingView.swift:290-298 | the view answers a point exactly when its bounds contain it; a touch on the right edge fails (`RatingInput.RightEdgeTouchIgnored`) |
| RatingInput.HandleTouch | StarView/UIRatingView.swift:234-288 | a touch handler changes only `progress`; it leaves the view unchanged when interaction is disabled, when there is no touch, or when the touch is outside the bounds; otherwise it sets the progress `updateProgress` computes |
| RatingInput.RightEdgeTouchIgnored | StarView/UIRatingView.swift:290-298 | a touch on the right edge of the bounds fails the half-open hit test and changes nothing |
| RatingInput.HandleTouches | StarView/UIRatingView.swift:234-288 | a sequence of touch events changes only `progress` |
| RatingInput.LastAcceptedTouchWins | StarView/UIRatingView.swift:234-288 | after any sequence of touches, progress is the value set by the last accepted touch, or the initial progress if no touch was accepted |
| RatingInput.DisabledViewIgnoresTouches | StarView/UIRatingView.swift:236-239 | with interaction disabled, no sequence of touches changes the view |
| RatingInput.HalfStarExample | StarView/UIRatingView.swift:192-227 | five stars over 0..10 on a 500-point row: touches at x = 130, 0 and 500 map to progress 3, 0 and 10 |
| StarView.NewView | StarView/UIStarView.swift:15-17 | a new star view has progress 0 and the preferred side 44 |
| StarView.IntrinsicContentSize | StarView/UIStarView.swift:22-25 | the preferred size is a square of side `defaultDimension` |
| StarView.NewViewIs44Square | StarView/UIStarView.swift:17-25 | a new view prefers 44 x 44 points |
| StarView.StarClip | StarView/UIStarView.swift:131-138 | the clip is the right-hand strip of the bounds: same y and height, right edge on the bounds' right edge, starts `progress * width` in; progress 0 gives the whole bounds, progress 1 zero width |
| StarView.StarClipShrinks | StarView/UIStarView.swift:136-138 | for a nonnegative `bounds.size.width`, raising progress never widens the clip and never moves its left edge left |
| StarView.StarClipUnclamped | StarView/UIStarView.swift:137-138 | for a positive `bounds.size.width`, progress above 1 gives a negative clip width; progress below 0 gives a clip left of the bounds and wider than them |
| ScoreView.Score | StarView/UIScoreView.swift:196-201 | the score is 0 without a delegate, otherwise the delegate's score for that index |
| ScoreView.Title | StarView/UIScoreView.swift:167-172 | the title is empty without a delegate, otherwise the delegate's title for that index |
| ScoreView.HeightConstant | StarView/UIScoreView.swift:51-65 | the height constraint's constant times starCount is the bounds' standardized width; it is nonnegative for a positive starCount |
| ScoreView.TitleLabel | StarView/UIScoreView.swift:160-172 | the title font is one eighth of the slot's standardized height; its rectangle starts 5 points below the slot's origin with the slot's standardized size, so for a slot of nonnegative size it is the slot moved 5 points down; its text is the looked-up title |
| ScoreView.ScoreLabel | StarView/UIScoreView.swift:187-203 | the score font is half the slot's standardized height less 10; its rectangle starts a quarter of that height below the slot's top edge and has the slot's standardized size; its text reads back as the looked-up score |
| ScoreView.NoDelegateDefaults | StarView/UIScoreView.swift:167-201 | without a delegate every star shows the score text "0" and an empty title |
| ScoreView.Draw | StarView/UIScoreView.swift:72-88 | exactly starCount slots, each of width w = (standardized rect width)/starCount, at x = rect.x + i*w, keeping the rect's y and height; each is drawn with progress 1 and its own index passed to both lookups |
| ScoreView.SlotsTileRect | StarView/UIScoreView.swift:79-87 | the slots are contiguous: the first starts at the rect's origin, each ends where the next begins, and the last ends one standardized width to the right of the origin, which is the rect's right edge when its width is nonnegative |
| ScoreView.ConstrainedSlotsAreSquare | StarView/UIScoreView.swift:51-87 | once the height constraint holds, every slot is a square |
| ScoreView.DemoDelegateLabels | StarView/ViewController.swift:23-31 | with the demo delegate, star 12 shows the text "12" under the title "Title" |
| Decimal.DecimalText | StarView/UIScoreView.swift:203 | the text of a score is nonempty and starts with '-' exactly when the score is negative |
| Decimal.DecimalTextRoundTrip | StarView/UIScoreView.swift:203 | parsing the text of a score gives back the score |
| Decimal.DecimalTextInjective | StarView/UIScoreView.swift:203 | distinct scores have distinct texts |

## Left out

- Star outline geometry (`degree2radian`, `polygonPointArray`, `starPath` in all three views): it is built from `cos` and `sin` of degree angles plus a fixed 630.25 degree offset. This is transcendental floating-point with no exact counterpart.
- UIKit painting (`UIRectFill`, path fill and stroke, the even-odd clip against `CGRect.infinite`, graphics-state save and restore, colours): these are framework calls. Only the clip rectangle they consume is modelled.
- Text rendering (`NSString.draw`, fonts, font weight, paragraph styles, attribute dictionaries): only the label rectangle, font size and text are kept.
- Auto Layout and Interface Builder plumbing (removing and adding the constraint object, `prepareForInterfaceBuilder`): only the constraint's constant is modelled.
- The debug `print` in `returnStarRating` and the redraw request `setNeedsDisplay`: these are side effects with no value to model.
- `CGFloat` rounding: the model is exact arithmetic, so a threshold such as 0.9 is the exact real.
- Swift's 64-bit `Int` overflow traps: integers are unbounded.
- `updateProgress` reads `frame.width` while the hit test uses `bounds`. The model takes both from `bounds` and so assumes no transform on the view.
- Non-finite `CGFloat` values:
  - A step of 0 makes the rating infinite or not a number. `ReturnStarRating` returns `None` for it, and `Draw`/`DrawAsWritten` require a nonzero step because `Int(_)` of such a value traps.
  - A `starCount` of 0 traps in the integer division (a precondition wherever the step is computed). In `layoutSubviews` it gives a non-finite constraint constant, which is not modelled.
- ScoreView.Draw: requires a nonnegative `starCount`. For a negative count the source's range `0 ..< starCount` traps, and the model does not represent the trap.
- ScoreView.HeightConstant: requires a nonzero `starCount` rather than modelling the non-finite constant the source computes for 0.
- The score view's delegate is an `AnyObject?` called by dynamic lookup. The model admits only an object that implements both lookups, or none. An object without them would trap at the force unwrap.
- `drawStarWithScore` takes a `progress` argument but paints the whole star regardless. The model records the argument (always 1) in each slot.
- The demo screen (`ViewController`) serves only as a fixture for the delegate.

## Findings

| source | as written | input that shows it | evidently intended | confidence | as-written member | corrected member |
|---|---|---|---|---|---|---|
| StarView/UIRatingView.swift:60-76 | `emptyStars = starCount - completeStars - inCompleteStars`, then `for _ in 0 ..< emptyStars` | starCount 3, maximumValue 10, minimumValue 0, progress 10: the step is 10/3 truncated to 3, the rating is 10/3, and the counts are 3, 1 and -1, so `0 ..< -1` traps | the row always shows starCount stars, and a rating above starCount shows every star full | high (not executed) | RatingView.DrawAsWritten, RatingView.UnevenMaximumBreaksRow | RatingView.Draw |

=== FILE: decimal.dfy ===
/**
 The decimal text of an integer, as Swift's `String(describing:)` writes an
 `Int`: an optional leading `-` followed by the digits of the magnitude, most
 significant first, with no leading zeros.  `Parse` reads such text back.
 */
module Decimal {
  import opened Options

  const Digits: string := "0123456789"

  predicate IsDigit(c: char)
  {
    '0' <= c <= '9'
  }

  function DigitChar(d: nat): (c: char)
    requires d < 10
    ensures IsDigit(c)
    ensures DigitValue(c) == d
  {
    Digits[d]
  }

  function DigitValue(c: char): (d: nat)
    requires IsDigit(c)
    ensures d < 10
  {
    (c as int) - ('0' as int)
  }

  /** The digits of a natural number; zero is written as `"0"`. */
  function NatText(n: nat): (s: string)
    ensures 0 < |s|
    ensures forall i :: 0 <= i < |s| ==> IsDigit(s[i])
    ensures 1 < |s| ==> s[0] != '0'
    decreases n
  {
    if n < 10 then [DigitChar(n)] else NatText(n / 10) + [DigitChar(n % 10)]
  }

  /** The text of an integer. */
  function DecimalText(i: int): (s: string)
    ensures 0 < |s|
    ensures i < 0 <==> s[0] == '-'
  {
    if i < 0 then "-" + NatText(-i) else NatText(i)
  }

  /** The value of a nonempty run of digits. */
  function DigitsValue(s: string): (n: nat)
    requires 0 < |s|
    requires forall i :: 0 <= i < |s| ==> IsDigit(s[i])
    decreases |s|
  {
    if |s| == 1 then DigitValue(s[0])
    else DigitsValue(s[..|s| - 1]) * 10 + DigitValue(s[|s| - 1])
  }

  /** Reads the text of an integer back; `None` for text that is not one. */
  function Parse(s: string): (r: Option<int>)
    ensures r.Some? && 0 < |s| && s[0] != '-' ==> 0 <= r.value
  {
    if 0 < |s| && s[0] == '-' then
      var rest := s[1..];
      if 0 < |rest| && forall i :: 0 <= i < |rest| ==> IsDigit(rest[i]) then Some(-(DigitsValue(rest) as int)) else None
    else if 0 < |s| && forall i :: 0 <= i < |s| ==> IsDigit(s[i]) then Some(DigitsValue(s))
    else None
  }

  lemma {:induction false} NatTextValue(n: nat)
    ensures DigitsValue(NatText(n)) == n
    decreases n
  {
    if n >= 10 {
      var s := NatText(n);
      assert s[..|s| - 1] == NatText(n / 10);
      NatTextValue(n / 10);
    }
  }

  /** Reading back the text of any integer gives that integer. */
  lemma DecimalTextRoundTrip(i: int)
    ensures Parse(DecimalText(i)) == Some(i)
  {
    if i < 0 {
      assert DecimalText(i)[1..] == NatText(-i);
      NatTextValue(-i);
    } else {
      NatTextValue(i);
    }
  }

  /** Distinct integers have distinct texts. */
  lemma DecimalTextInjective(i: int, j: int)
    requires DecimalText(i) == DecimalText(j)
    ensures i == j
  {
    DecimalTextRoundTrip(i);
    DecimalTextRoundTrip(j);
  }
}

=== FILE: geometry.dfy ===
/**
 Rectangles, points and sizes in exact arithmetic (CoreGraphics' `CGRect`,
 `CGPoint`, `CGSize`), and the partial-fill clip rectangle that every star
 view computes before painting a star.
 */
module Geometry {

  datatype Point = Point(x: real, y: real)

  datatype Size = Size(width: real, height: real)

  /** The magnitude of a length. */
  function AbsReal(a: real): (r: real)
    ensures 0.0 <= r && (r == a || r == -a)
  {
    if a < 0.0 then -a else a
  }

  /** A rectangle given by its origin and its (possibly negative) size. */
  datatype Rect = Rect(x: real, y: real, width: real, height: real) {

    /** `minX`, `maxX`, `minY`, `maxY` and `midY` of the standardized rectangle. */
    function MinX(): real { if width < 0.0 then x + width else x }
    function MaxX(): real { if width < 0.0 then x else x + width }
    function MinY(): real { if height < 0.0 then y + height else y }
    function MaxY(): real { if height < 0.0 then y else y + height }
    function MidY(): real { y + height / 2.0 }

    /**
     `width` and `height` as CoreGraphics reports them: the extent of the
     standardized rectangle, never negative.  The stored fields keep their sign.
     */
    function Width(): (w: real)
      ensures w == MaxX() - MinX()
      ensures 0.0 <= w && (0.0 <= width ==> w == width)
    {
      AbsReal(width)
    }

    function Height(): (h: real)
      ensures h == MaxY() - MinY()
      ensures 0.0 <= h && (0.0 <= height ==> h == height)
    {
      AbsReal(height)
    }

    /** The x coordinate of the right edge, `origin.x + size.width`, for any sign of the width. */
    function RightEdge(): real { x + width }

    /**
     `contains(_:)` of a rectangle: the point lies in the half-open box
     `[minX, maxX) x [minY, maxY)`; a rectangle of zero width or height contains nothing.
     */
    predicate Contains(p: Point)
    {
      MinX() <= p.x < MaxX() && MinY() <= p.y < MaxY()
    }
  }

  /** A rectangle that contains any point has a nonzero width and height. */
  lemma ContainsHasArea(r: Rect, p: Point)
    requires r.Contains(p)
    ensures r.width != 0.0 && r.height != 0.0
  {
  }

  /**
   The clip rectangle of a star drawn with fill fraction `progress` in
   `frame`, whose width is read as `frameWidth`: the right-hand part that the
   filled colour must NOT cover.  The filled colour is painted through the
   even-odd complement of this rectangle, so the star shows the filled colour
   on `[frame.x, clip.x)`.  The fraction is not clamped.
   */
  function FillClip(frame: Rect, frameWidth: real, progress: real): (clip: Rect)
    ensures clip.y == frame.y && clip.height == frame.height
    ensures clip.RightEdge() == frame.x + frameWidth
    ensures clip.x - frame.x == progress * frameWidth
    ensures clip.width == (1.0 - progress) * frameWidth
    ensures progress == 0.0 ==> clip == frame.(width := frameWidth)
    ensures progress == 1.0 ==> clip.width == 0.0 && clip.x == frame.x + frameWidth
  {
    Rect(frame.x + progress * frameWidth, frame.y, frameWidth - progress * frameWidth, frame.height)
  }

  /**
   A larger fill fraction never widens the clip: for a nonnegative width the
   clip for `p2 >= p1` starts no further left and is no wider than the clip
   for `p1`, and both end at the same right edge.
   */
  lemma FillClipShrinks(frame: Rect, frameWidth: real, p1: real, p2: real)
    requires 0.0 <= frameWidth
    requires p1 <= p2
    ensures FillClip(frame, frameWidth, p1).x <= FillClip(frame, frameWidth, p2).x
    ensures FillClip(frame, frameWidth, p2).width <= FillClip(frame, frameWidth, p1).width
    ensures FillClip(frame, frameWidth, p1).RightEdge() == FillClip(frame, frameWidth, p2).RightEdge()
  {
    MulMonotone(p1, p2, frameWidth);
  }

  /** For a nonnegative width and a fill in `[0, 1]` the clip lies within the frame's width. */
  lemma FillClipWithinFrame(frame: Rect, frameWidth: real, progress: real)
    requires 0.0 <= frameWidth
    ensures 0.0 <= progress <= 1.0 ==> frame.x <= FillClip(frame, frameWidth, progress).x
    ensures 0.0 <= progress <= 1.0 ==> 0.0 <= FillClip(frame, frameWidth, progress).width
    ensures 0.0 <= progress <= 1.0 ==> FillClip(frame, frameWidth, progress).width <= frameWidth
  {
    if 0.0 <= progress <= 1.0 {
      var moved := progress * frameWidth;
      MulMonotone(0.0, progress, frameWidth);
      MulMonotone(progress, 1.0, frameWidth);
      assert 0.0 <= moved <= frameWidth;
    }
  }

  /**
   The fill fraction is used as given: a fraction above 1 gives a clip of
   negative width, and a fraction below 0 gives a clip that starts left of
   the frame and is wider than it.
   */
  lemma FillClipUnclamped(frame: Rect, frameWidth: real, progress: real)
    requires 0.0 < frameWidth
    ensures 1.0 < progress ==> FillClip(frame, frameWidth, progress).width < 0.0
    ensures progress < 0.0 ==>
              FillClip(frame, frameWidth, progress).x < frame.x && frameWidth < FillClip(frame, frameWidth, progress).width
  {
    if 1.0 < progress {
      MulMonotone(1.0, progress, frameWidth);
      assert progress * frameWidth != 1.0 * frameWidth by {
        if progress * frameWidth == 1.0 * frameWidth {
          MulCancel(progress, 1.0, frameWidth);
        }
      }
    } else if progress < 0.0 {
      MulMonotone(progress, 0.0, frameWidth);
      assert progress * frameWidth != 0.0 by {
        if progress * frameWidth == 0.0 * frameWidth {
          MulCancel(progress, 0.0, frameWidth);
        }
      }
    }
  }

  lemma MulMonotone(a: real, b: real, c: real)
    requires a <= b && 0.0 <= c
    ensures a * c <= b * c
  {
    assert b * c - a * c == (b - a) * c;
  }

  lemma MulCancel(a: real, b: real, c: real)
    requires c != 0.0 && a * c == b * c
    ensures a == b
  {
    assert (a - b) * c == 0.0;
  }
}

=== FILE: options.dfy ===
/** An optional value, used where the views work with a value that may be absent. */
module Options {

  datatype Option<+T> = None | Some(value: T) {

    /** The wrapped value, or `default` when there is none. */
    function GetOr(default: T): (r: T)
      ensures Some? ==> r == value
      ensures None? ==> r == default
    {
      match this
      case Some(v) => v
      case None => default
    }
  }
}

=== FILE: rating_input.dfy ===
/**
 Touch handling of the interactive rating view (`UIRatingView`): the map
 from a touch's x coordinate to a new `progress` (`updateProgress`), and the
 touch handlers that apply it when interaction is enabled and the touch
 falls inside the view's bounds.
 */
module RatingInput {
  import opened SwiftNumeric
  import opened Geometry
  import opened Options
  import opened RatingView

  /** A touch offset split into whole stars and the fraction of the next star. */
  datatype Snap = Snap(whole: int, frac: real) {
    function Value(): real { whole as real + frac }
  }

  /**
   The half-star rule used when a star spans two steps: a fraction below
   0.25 drops to the whole star, one below 0.75 becomes half a star, and any
   larger one completes the next star.  For a fraction in `[0, 1)` the
   result is the touch offset rounded to the nearest half star, halves
   rounding up.
   */
  function SnapHalf(s: Snap): (r: Snap)
    ensures r.frac == 0.0 || r.frac == 0.5
    ensures s.whole <= r.whole <= s.whole + 1
  {
    if s.frac < 0.25 then Snap(s.whole, 0.0)
    else if s.frac >= 0.25 && s.frac < 0.75 then Snap(s.whole, 0.5)
    else if s.frac >= 0.75 then Snap(s.whole + 1, 0.0)
    else s
  }

  lemma FloorIs(x: real, k: int)
    requires k as real <= x < k as real + 1.0
    ensures x.Floor == k
  {
  }

  /** For a fraction in `[0, 1)` the half-star rule rounds the offset to the nearest half star, halves up. */
  lemma SnapHalfNearest(s: Snap)
    requires 0.0 <= s.frac < 1.0
    ensures 2.0 * SnapHalf(s).Value() == (2.0 * s.Value() + 0.5).Floor as real
  {
    var x := 2.0 * s.Value() + 0.5;
    var w := 2 * s.whole;
    assert x == w as real + 2.0 * s.frac + 0.5;
    if s.frac < 0.25 {
      FloorIs(x, w);
    } else if s.frac < 0.75 {
      FloorIs(x, w + 1);
    } else {
      FloorIs(x, w + 2);
    }
  }

  /** The blanket rule: a fraction above 0.9 completes the next star. */
  function SnapNinety(s: Snap): (r: Snap)
    ensures r.frac <= 0.9
    ensures s.frac <= 0.9 ==> r == s
    ensures 0.9 < s.frac ==> r.whole == s.whole + 1 && r.frac == 0.0
  {
    if s.frac > 0.9 then Snap(s.whole + 1, 0.0) else s
  }

  /** The half-star rule never leaves a fraction the blanket rule acts on. */
  lemma NinetyIdleAfterHalf(s: Snap)
    ensures SnapNinety(SnapHalf(s)) == SnapHalf(s)
  {
  }

  /**
   The progress for a touch `distance` stars from the left edge, with
   `step` values per star: split the distance with `Int(_)`, apply the
   half-star rule when the step is 2, then the blanket rule, and truncate
   `(whole + fraction) * step`.  Nothing is clamped.
   */
  function ProgressForDistance(distance: real, step: int): int
  {
    var split := Snap(Trunc(distance), TruncFrac(distance));
    var snapped := SnapNinety(if step == 2 then SnapHalf(split) else split);
    Trunc(snapped.Value() * step as real)
  }

  /** How many star widths (the standardized width over `starCount`) the touch at `x` lies from the view's left edge. */
  function Distance(v: View, x: real): (d: real)
    requires v.starCount != 0 && v.bounds.Width() != 0.0
    ensures d * (v.bounds.Width() / v.starCount as real) == x
    ensures 0 < v.starCount && 0.0 <= x ==> 0.0 <= d
  {
    DivMul(x, v.bounds.Width() / v.starCount as real);
    x / (v.bounds.Width() / v.starCount as real)
  }

  /** `updateProgress(forTouchAtPoint:)`: the progress the view takes on for a touch at `x`. */
  function UpdateProgress(v: View, x: real): (p: int)
    requires v.starCount != 0 && v.bounds.Width() != 0.0
    ensures x == 0.0 ==> p == 0
  {
    ProgressForDistance(Distance(v, x), StepPerStar(v))
  }

  lemma FloorMonotone(a: real, b: real)
    requires a <= b
    ensures a.Floor <= b.Floor
  {
  }

  /** With two steps per star the progress is twice the distance rounded to the nearest half, halves up. */
  lemma HalfStarProgress(distance: real)
    requires 0.0 <= distance
    ensures ProgressForDistance(distance, 2) == (2.0 * distance + 0.5).Floor
  {
    var split := Snap(Trunc(distance), TruncFrac(distance));
    var snapped := SnapHalf(split);
    NinetyIdleAfterHalf(split);
    SnapHalfNearest(split);
    assert 2.0 * snapped.Value() == (2.0 * distance + 0.5).Floor as real;
    assert snapped.Value() * 2.0 == (2.0 * distance + 0.5).Floor as real;
    TruncOfInt((2.0 * distance + 0.5).Floor);
  }

  /**
   Any other step: a touch within the last tenth of a star completes the
   star, and every other touch gives the truncated `distance * step`.
   */
  lemma WholeStepProgress(distance: real, step: int)
    requires 0.0 <= distance && step != 2
    ensures TruncFrac(distance) > 0.9 ==> ProgressForDistance(distance, step) == (distance.Floor + 1) * step
    ensures TruncFrac(distance) <= 0.9 ==> ProgressForDistance(distance, step) == Trunc(distance * step as real)
  {
    if TruncFrac(distance) > 0.9 {
      assert (distance.Floor + 1) as real * step as real == ((distance.Floor + 1) * step) as real;
      TruncOfInt((distance.Floor + 1) * step);
    }
  }

  lemma IntMulReal(a: int, b: int)
    ensures (a * b) as real == a as real * b as real
  {
  }

  lemma TruncBetween(x: real, a: int, b: int)
    requires a as real <= x <= b as real
    ensures a <= Trunc(x) <= b
  {
    TruncOfInt(a);
    TruncOfInt(b);
    TruncMonotone(a as real, x);
    TruncMonotone(x, b as real);
  }

  /** The product of a distance and a nonnegative step lies between the whole stars passed and the next one. */
  lemma ScaledDistanceBounds(distance: real, step: int)
    requires 0.0 <= distance && 0 <= step
    ensures (distance.Floor * step) as real <= distance * step as real <= ((distance.Floor + 1) * step) as real
  {
    var fl := distance.Floor;
    var s := step as real;
    var gapLo := distance - fl as real;
    var gapHi := (fl + 1) as real - distance;
    assert 0.0 <= gapLo && 0.0 <= gapHi;
    assert 0.0 <= gapLo * s && 0.0 <= gapHi * s;
    IntMulReal(fl, step);
    IntMulReal(fl + 1, step);
    assert distance * s - fl as real * s == gapLo * s;
    assert (fl + 1) as real * s - distance * s == gapHi * s;
  }

  /** For any step other than 2, the progress lies between the whole stars passed and the next one. */
  lemma WholeStepBounds(distance: real, step: int)
    requires 0.0 <= distance && 0 <= step && step != 2
    ensures distance.Floor * step <= ProgressForDistance(distance, step) <= (distance.Floor + 1) * step
  {
    var fl := distance.Floor;
    WholeStepProgress(distance, step);
    IntMulMonotone(fl, fl + 1, step);
    if TruncFrac(distance) <= 0.9 {
      ScaledDistanceBounds(distance, step);
      TruncBetween(distance * step as real, fl * step, (fl + 1) * step);
    }
  }

  lemma IntMulMonotone(a: int, b: int, c: int)
    requires a <= b && 0 <= c
    ensures a * c <= b * c
  {
    assert b * c - a * c == (b - a) * c;
  }

  lemma FracMonotoneWithinStar(d1: real, d2: real)
    requires 0.0 <= d1 <= d2 && d1.Floor == d2.Floor
    ensures TruncFrac(d1) <= TruncFrac(d2)
  {
    assert Trunc(d1) == d1.Floor && Trunc(d2) == d2.Floor;
  }

  lemma TruncProductMonotone(d1: real, d2: real, step: int)
    requires 0.0 <= d1 <= d2 && 0 <= step
    ensures Trunc(d1 * step as real) <= Trunc(d2 * step as real)
  {
    MulMonotone(d1, d2, step as real);
    TruncMonotone(d1 * step as real, d2 * step as real);
  }

  lemma MonotoneWithinStar(d1: real, d2: real, step: int)
    requires 0.0 <= d1 <= d2 && 0 <= step && step != 2
    requires d1.Floor == d2.Floor
    ensures ProgressForDistance(d1, step) <= ProgressForDistance(d2, step)
  {
    FracMonotoneWithinStar(d1, d2);
    WholeStepProgress(d2, step);
    if TruncFrac(d2) <= 0.9 {
      WholeStepProgress(d1, step);
      TruncProductMonotone(d1, d2, step);
    } else {
      WholeStepBounds(d1, step);
    }
  }

  lemma MonotoneAcrossStars(d1: real, d2: real, step: int)
    requires 0.0 <= d1 <= d2 && 0 <= step && step != 2
    requires d1.Floor < d2.Floor
    ensures ProgressForDistance(d1, step) <= ProgressForDistance(d2, step)
  {
    WholeStepBounds(d1, step);
    WholeStepBounds(d2, step);
    IntMulMonotone(d1.Floor + 1, d2.Floor, step);
  }

  /** For a nonnegative step, the progress grows with the distance. */
  lemma ProgressMonotone(d1: real, d2: real, step: int)
    requires 0.0 <= d1 <= d2 && 0 <= step
    ensures ProgressForDistance(d1, step) <= ProgressForDistance(d2, step)
  {
    if step == 2 {
      HalfStarProgress(d1);
      HalfStarProgress(d2);
      FloorMonotone(2.0 * d1 + 0.5, 2.0 * d2 + 0.5);
    } else {
      FloorMonotone(d1, d2);
      if d1.Floor == d2.Floor {
        MonotoneWithinStar(d1, d2, step);
      } else {
        MonotoneAcrossStars(d1, d2, step);
      }
    }
  }

  /** A distance below `starCount` never yields more than `starCount` steps. */
  lemma ProgressBelowFullRow(distance: real, step: int, starCount: int)
    requires 0.0 <= distance < starCount as real && 0 <= step
    ensures 0 <= ProgressForDistance(distance, step) <= starCount * step
  {
    if step == 2 {
      HalfStarProgress(distance);
      FloorMonotone(0.5, 2.0 * distance + 0.5);
      assert 2.0 * distance + 0.5 < (2 * starCount) as real + 1.0;
    } else {
      WholeStepBounds(distance, step);
      IntMulMonotone(0, distance.Floor, step);
      IntMulMonotone(distance.Floor + 1, starCount, step);
    }
  }

  /**
   A touch inside a view whose bounds start at x = 0 never lifts progress
   above `starCount * stepPerStar`, which is at most `maximumValue`; it is
   never negative, though it can fall below a positive `minimumValue`.
   */
  lemma TouchInBoundsWithinMaximum(v: View, x: real)
    requires 0 < v.starCount && 0 <= v.maximumValue
    requires 0.0 < v.bounds.width && 0.0 <= x < v.bounds.width
    ensures 0 <= UpdateProgress(v, x) <= v.starCount * StepPerStar(v) <= v.maximumValue
  {
    var n := v.starCount as real;
    var w := v.bounds.width;
    assert v.bounds.Width() == w;
    assert Distance(v, x) == x * n / w;
    assert x * n < w * n by { assert w * n - x * n == (w - x) * n; }
    assert Distance(v, x) < n by { assert x * n / w < (w * n) / w; }
    assert 0.0 <= Distance(v, x);
    TruncDivBound(v.maximumValue, v.starCount);
    ProgressBelowFullRow(Distance(v, x), StepPerStar(v), v.starCount);
  }

  /** Moving a touch right never lowers the progress it sets, for a nonnegative step. */
  lemma UpdateProgressMonotone(v: View, x1: real, x2: real)
    requires 0 < v.starCount && 0.0 < v.bounds.width && 0 <= StepPerStar(v)
    requires 0.0 <= x1 <= x2
    ensures UpdateProgress(v, x1) <= UpdateProgress(v, x2)
  {
    assert v.bounds.Width() == v.bounds.width;
    var sw := v.bounds.width / v.starCount as real;
    assert Distance(v, x1) <= Distance(v, x2) by {
      assert 0.0 < sw;
      assert x1 / sw <= x2 / sw;
    }
    assert 0.0 <= Distance(v, x1);
    ProgressMonotone(Distance(v, x1), Distance(v, x2), StepPerStar(v));
  }

  /** Which of the three handlers a touch arrives through; all three act alike. */
  datatype TouchPhase = Began | Moved | Ended

  /** A touch event: its phase and the location of the first touch, if any. */
  datatype Touch = Touch(phase: TouchPhase, location: Option<Point>)

  /** `hitTest`: the view answers for a point exactly when its bounds contain it. */
  predicate HitTest(v: View, p: Point)
  {
    v.bounds.Contains(p)
  }

  /** The handler passes the touch to `updateProgress`: interaction is on, there is a touch and it hits the view. */
  predicate Accepts(v: View, t: Touch)
  {
    v.isInteractionEnabled && t.location.Some? && HitTest(v, t.location.value)
  }

  /**
   `touchesBegan`, `touchesMoved` and `touchesEnded`: an accepted touch sets
   `progress` from its x coordinate; anything else leaves the view as it is.
   */
  function HandleTouch(v: View, t: Touch): (r: View)
    requires Accepts(v, t) ==> v.starCount != 0
    ensures r == v.(progress := r.progress)
    ensures !v.isInteractionEnabled ==> r == v
    ensures t.location.None? ==> r == v
    ensures t.location.Some? && !v.bounds.Contains(t.location.value) ==> r == v
    ensures Accepts(v, t) ==> r.progress == UpdateProgress(v, t.location.value.x)
  {
    if !v.isInteractionEnabled then v
    else match t.location
      case None => v
      case Some(p) =>
        if HitTest(v, p) then
          ContainsHasArea(v.bounds, p);
          v.(progress := UpdateProgress(v, p.x))
        else v
  }

  /**
   A touch on the right edge of the bounds is outside the half-open box, so
   it is ignored, although for bounds starting at x = 0 `updateProgress`
   would map it to a full row.
   */
  lemma RightEdgeTouchIgnored(v: View, t: Touch)
    requires t.location.Some? && 0.0 < v.bounds.width
    requires t.location.value.x == v.bounds.x + v.bounds.width
    ensures HandleTouch(v, t) == v
  {
  }

  /** The view after a sequence of touch events, each handled in turn. */
  function HandleTouches(v: View, ts: seq<Touch>): (r: View)
    requires v.starCount != 0
    ensures r == v.(progress := r.progress)
  {
    if |ts| == 0 then v else HandleTouch(HandleTouches(v, ts[..|ts| - 1]), ts[|ts| - 1])
  }

  /** The progress set by the last accepted touch of `ts`, if one is accepted. */
  function LastAccepted(v: View, ts: seq<Touch>): Option<int>
    requires v.starCount != 0
  {
    if |ts| == 0 then None
    else if Accepts(v, ts[|ts| - 1]) then Some(UpdateProgress(v, ts[|ts| - 1].location.value.x))
    else LastAccepted(v, ts[..|ts| - 1])
  }

  /**
   Handling touches is a small state machine on `progress` alone: after any
   sequence of touches the progress is the one set by the last accepted
   touch, or the initial progress when none is accepted.
   */
  lemma {:induction false} LastAcceptedTouchWins(v: View, ts: seq<Touch>)
    requires v.starCount != 0
    ensures HandleTouches(v, ts).progress == LastAccepted(v, ts).GetOr(v.progress)
  {
    if |ts| > 0 {
      var before := HandleTouches(v, ts[..|ts| - 1]);
      LastAcceptedTouchWins(v, ts[..|ts| - 1]);
      assert before == v.(progress := before.progress);
      assert Accepts(before, ts[|ts| - 1]) == Accepts(v, ts[|ts| - 1]);
      if Accepts(v, ts[|ts| - 1]) {
        assert UpdateProgress(before, ts[|ts| - 1].location.value.x) == UpdateProgress(v, ts[|ts| - 1].location.value.x);
      }
    }
  }

  /** With interaction disabled no sequence of touches changes the view. */
  lemma DisabledViewIgnoresTouches(v: View, ts: seq<Touch>)
    requires v.starCount != 0 && !v.isInteractionEnabled
    ensures HandleTouches(v, ts) == v
  {
    LastAcceptedTouchWins(v, ts);
    NoneAccepted(v, ts);
  }

  lemma {:induction false} NoneAccepted(v: View, ts: seq<Touch>)
    requires v.starCount != 0 && !v.isInteractionEnabled
    ensures LastAccepted(v, ts) == None
  {
    if |ts| > 0 {
      NoneAccepted(v, ts[..|ts| - 1]);
    }
  }

  /**
   Five stars over ten values on a 500-point-wide view: a touch 1.3 stars in
   (x = 130) lands on the half star, progress 3.
   */
  lemma HalfStarExample()
    ensures var v := DefaultView(Rect(0.0, 0.0, 500.0, 44.0));
            UpdateProgress(v, 130.0) == 3 && UpdateProgress(v, 0.0) == 0 && UpdateProgress(v, 500.0) == 10
  {
    var v := DefaultView(Rect(0.0, 0.0, 500.0, 44.0));
    assert StepPerStar(v) == 2;
    assert Distance(v, 130.0) == 1.3;
    HalfStarProgress(1.3);
    assert Distance(v, 500.0) == 5.0;
    HalfStarProgress(5.0);
  }
}

=== FILE: rating_view.dfy ===
/**
 The interactive rating view (`UIRatingView`): its configuration, the
 clamping of `progress`, the star rating derived from it, the split of the
 rating into complete, partial and empty stars, and the left-to-right layout
 of the star slots that `draw` paints.
 */
module RatingView {
  import opened SwiftNumeric
  import opened Geometry
  import opened Options

  /** The inspectable properties of the view, its `progress` and its `bounds`. */
  datatype View = View(
    height: real,
    isInteractionEnabled: bool,
    starCount: int,
    starSpacing: real,
    maximumValue: int,
    minimumValue: int,
    progress: int,
    bounds: Rect)

  /** A view with the property defaults: 5 stars of height 44, values 0 to 10, interaction off. */
  function DefaultView(bounds: Rect): (v: View)
    ensures v.height == 44.0 && v.starSpacing == 0.0 && !v.isInteractionEnabled
    ensures v.starCount == 5 && v.maximumValue == 10 && v.minimumValue == 0 && v.progress == 0
    ensures v.bounds == bounds
  {
    View(44.0, false, 5, 0.0, 10, 0, 0, bounds)
  }

  /**
   The preferred size: `height` tall, and one slot of width `height` plus one
   spacing per star wide.  `RowSpansIntrinsicWidth` relates the width to the
   row `draw` lays out.
   */
  function IntrinsicContentSize(v: View): (s: Size)
    ensures s.height == v.height
    ensures s.width == v.starCount as real * v.height + v.starCount as real * v.starSpacing
    ensures 0 <= v.starCount && 0.0 <= v.height + v.starSpacing ==> 0.0 <= s.width
  {
    Size(v.starCount as real * (v.height + v.starSpacing), v.height)
  }

  /**
   The value range of one star: `maximumValue / starCount` in Swift's
   truncating integer division.  The minimum value plays no part.
   */
  function StepPerStar(v: View): int
    requires v.starCount != 0
  {
    TruncDiv(v.maximumValue, v.starCount)
  }

  /**
   `starCount` steps fall short of `maximumValue` by less than one
   `starCount`, on the side of zero.
   */
  lemma StepPerStarQuotient(v: View)
    requires v.starCount != 0
    ensures Abs(v.maximumValue - v.starCount * StepPerStar(v)) < Abs(v.starCount)
    ensures 0 <= v.maximumValue ==> 0 <= v.maximumValue - v.starCount * StepPerStar(v)
    ensures v.maximumValue <= 0 ==> v.maximumValue - v.starCount * StepPerStar(v) <= 0
  {
    TruncDivRemainder(v.maximumValue, v.starCount);
  }

  /** `progress` after the clamp of `returnStarRating`. */
  function ClampProgress(v: View): (p: int)
    ensures v.minimumValue <= v.maximumValue ==> v.minimumValue <= p <= v.maximumValue
    ensures v.minimumValue <= v.progress <= v.maximumValue ==> p == v.progress
    ensures v.progress < v.minimumValue ==> p == v.minimumValue
    ensures v.minimumValue <= v.progress && v.maximumValue < v.progress ==> p == v.maximumValue
  {
    if v.progress < v.minimumValue then v.minimumValue
    else if v.progress > v.maximumValue then v.maximumValue
    else v.progress
  }

  /** Clamping twice is clamping once, as long as the range is not empty. */
  lemma ClampIdempotent(v: View)
    requires v.minimumValue <= v.maximumValue
    ensures ClampProgress(v.(progress := ClampProgress(v))) == ClampProgress(v)
  {
  }

  /** `rating` stars of `step` values each make up `progress`. */
  predicate MeasuresProgress(rating: real, progress: int, step: int)
  {
    rating * step as real == progress as real
  }

  /** The star rating: the clamped progress measured in steps per star. */
  function StarRating(v: View): (rating: real)
    requires v.starCount != 0 && StepPerStar(v) != 0
    ensures MeasuresProgress(rating, ClampProgress(v), StepPerStar(v))
  {
    Quotient(ClampProgress(v), StepPerStar(v))
  }

  /** `CGFloat(p) / CGFloat(s)` in exact arithmetic. */
  function Quotient(p: int, s: int): (q: real)
    requires s != 0
    ensures MeasuresProgress(q, p, s)
  {
    DivMul(p as real, s as real);
    p as real / s as real
  }

  lemma DivMul(a: real, b: real)
    requires b != 0.0
    ensures (a / b) * b == a
  {
  }

  /**
   `returnStarRating`: writes the clamped progress back into the view and
   returns the rating.  A step of zero makes the floating-point quotient
   infinite or not a number; the model returns `None` for it.
   */
  function ReturnStarRating(v: View): (r: (View, Option<real>))
    requires v.starCount != 0
    ensures r.0 == v.(progress := r.0.progress)
    ensures r.0.progress == ClampProgress(v)
    ensures r.1.None? <==> StepPerStar(v) == 0
    ensures r.1.Some? ==> MeasuresProgress(r.1.value, r.0.progress, StepPerStar(v))
  {
    var clamped := v.(progress := ClampProgress(v));
    if StepPerStar(v) == 0 then (clamped, None) else (clamped, Some(StarRating(v)))
  }

  /** The number of complete, partial and empty stars `draw` paints. */
  datatype StarCounts = StarCounts(complete: int, incomplete: int, empty: int) {
    function Total(): int { complete + incomplete + empty }
  }

  /** Every count is a valid upper bound of a Swift range `0 ..< n`; a negative one traps. */
  predicate Drawable(c: StarCounts)
  {
    0 <= c.complete && 0 <= c.incomplete && 0 <= c.empty
  }

  /**
   The split of a rating as `draw` writes it: `Int(rating)` complete stars,
   one partial star when something is left over, and the rest empty.
   */
  function Partition(rating: real, starCount: int): (c: StarCounts)
    ensures c.Total() == starCount
    ensures c.incomplete == 0 || c.incomplete == 1
    ensures c.incomplete == 1 ==> 0.0 < TruncFrac(rating) < 1.0
    ensures 0.0 <= rating ==> c.complete == rating.Floor
    ensures 0.0 <= rating ==> (c.incomplete == 1 <==> rating != rating.Floor as real)
    ensures 0.0 <= rating <= starCount as real ==> Drawable(c)
  {
    var complete := Trunc(rating);
    var incomplete := if TruncFrac(rating) > 0.0 then 1 else 0;
    StarCounts(complete, incomplete, starCount - complete - incomplete)
  }

  /** The split is drawable exactly when the rating lies in `(-1, starCount]`. */
  lemma DrawableIffRatingInRange(rating: real, starCount: int)
    ensures Drawable(Partition(rating, starCount)) <==> -1.0 < rating <= starCount as real
  {
    var c := Partition(rating, starCount);
    if -1.0 < rating <= starCount as real {
      if rating < 0.0 {
        assert c.complete == 0 && c.incomplete == 0;
      }
    }
    if Drawable(c) && rating < 0.0 {
      assert Trunc(rating) == 0;
    }
  }

  /** One painted star: its slot rectangle and its fill fraction. */
  datatype StarSlot = StarSlot(frame: Rect, fill: real) {
    /**
     The clip rectangle `drawStar` derives from the slot, reading the slot's
     standardized width: a fill in `[0, 1]` leaves an unfilled strip no wider
     than the slot, ending one standardized width right of the slot's origin.
     */
    function Clip(): (c: Rect)
      ensures c.RightEdge() == frame.x + frame.Width()
      ensures 0.0 <= fill <= 1.0 ==> frame.x <= c.x && 0.0 <= c.width <= frame.Width()
    {
      FillClipWithinFrame(frame, frame.Width(), fill);
      FillClip(frame, frame.Width(), fill)
    }
  }

  /**
   Slot `k` of the row: the drawing rectangle with its width set to
   `height` (its y and height are kept), starting half a spacing in and
   advancing by the slot's standardized width `|height|` plus `starSpacing`
   per slot.
   */
  function SlotFrame(rect: Rect, height: real, spacing: real, k: int): Rect
  {
    Rect(rect.x + spacing / 2.0 + k as real * (AbsReal(height) + spacing), rect.y, height, rect.height)
  }

  /** The fill of slot `k`: full for complete stars, the leftover for the partial one, none after. */
  function FillAt(c: StarCounts, partial: real, k: int): real
  {
    if k < c.complete then 1.0 else if k < c.complete + c.incomplete then partial else 0.0
  }

  /** The slots of a row with counts `c`, in drawing order. */
  ghost predicate LaidOut(slots: seq<StarSlot>, c: StarCounts, partial: real, rect: Rect, height: real, spacing: real)
  {
    && |slots| == c.Total()
    && forall k :: 0 <= k < |slots| ==> slots[k] == StarSlot(SlotFrame(rect, height, spacing, k), FillAt(c, partial, k))
  }

  lemma SlotAdvance(rect: Rect, height: real, spacing: real, k: int)
    ensures SlotFrame(rect, height, spacing, k + 1).x == SlotFrame(rect, height, spacing, k).x + AbsReal(height) + spacing
  {
    var a := AbsReal(height) + spacing;
    assert (k + 1) as real * a == k as real * a + a;
  }

  /**
   The three loops of `draw`: `complete` slots with fill 1, `incomplete`
   slots with fill `partial`, `empty` slots with fill 0, each slot moved its
   standardized width and one spacing right of the one before.
   */
  method LayOutSlots(c: StarCounts, partial: real, rect: Rect, height: real, spacing: real)
    returns (slots: seq<StarSlot>)
    requires Drawable(c)
    ensures LaidOut(slots, c, partial, rect, height, spacing)
  {
    var frame := rect.(width := height);
    frame := frame.(x := frame.x + spacing / 2.0);
    slots := [];
    var i := 0;
    while i < c.complete
      invariant 0 <= i <= c.complete
      invariant |slots| == i
      invariant frame == SlotFrame(rect, height, spacing, |slots|)
      invariant forall k :: 0 <= k < |slots| ==> slots[k] == StarSlot(SlotFrame(rect, height, spacing, k), FillAt(c, partial, k))
    {
      SlotAdvance(rect, height, spacing, |slots|);
      slots := slots + [StarSlot(frame, 1.0)];
      frame := frame.(x := frame.x + frame.Width() + spacing);
      i := i + 1;
    }
    i := 0;
    while i < c.incomplete
      invariant 0 <= i <= c.incomplete
      invariant |slots| == c.complete + i
      invariant frame == SlotFrame(rect, height, spacing, |slots|)
      invariant forall k :: 0 <= k < |slots| ==> slots[k] == StarSlot(SlotFrame(rect, height, spacing, k), FillAt(c, partial, k))
    {
      SlotAdvance(rect, height, spacing, |slots|);
      slots := slots + [StarSlot(frame, partial)];
      frame := frame.(x := frame.x + frame.Width() + spacing);
      i := i + 1;
    }
    i := 0;
    while i < c.empty
      invariant 0 <= i <= c.empty
      invariant |slots| == c.complete + c.incomplete + i
      invariant frame == SlotFrame(rect, height, spacing, |slots|)
      invariant forall k :: 0 <= k < |slots| ==> slots[k] == StarSlot(SlotFrame(rect, height, spacing, k), FillAt(c, partial, k))
    {
      SlotAdvance(rect, height, spacing, |slots|);
      slots := slots + [StarSlot(frame, 0.0)];
      frame := frame.(x := frame.x + frame.Width() + spacing);
      i := i + 1;
    }
  }

  /** Fills never increase from left to right when the partial fill lies in `[0, 1]`. */
  lemma FillsNonIncreasing(c: StarCounts, partial: real, j: int, k: int)
    requires 0.0 <= partial <= 1.0
    requires j <= k
    ensures FillAt(c, partial, k) <= FillAt(c, partial, j)
  {
  }

  /**
   Consecutive slots are `starSpacing` apart, so with a nonnegative spacing
   no two slots overlap, whatever the sign of `height`.
   */
  lemma SlotsDoNotOverlap(rect: Rect, height: real, spacing: real, j: int, k: int)
    requires 0.0 <= spacing
    requires j < k
    ensures SlotFrame(rect, height, spacing, j).MaxX() + spacing <= SlotFrame(rect, height, spacing, k).MinX()
  {
    var a := AbsReal(height) + spacing;
    var d := (k - j - 1) as real;
    assert SlotFrame(rect, height, spacing, k).x == SlotFrame(rect, height, spacing, j).x + a + d * a;
    assert 0.0 <= d * a;
  }

  /**
   The unfilled strip of slot `k` ends one spacing before the origin of slot
   `k + 1`, and for a fill in `[0, 1]` it starts at or right of slot `k`'s
   origin.  For a nonnegative `height` the origin is the next slot's left
   edge; for a negative one the next slot's standardized box starts
   `|height|` further left.
   */
  lemma ClipEndsBeforeNextSlot(rect: Rect, height: real, spacing: real, fill: real, k: int)
    ensures StarSlot(SlotFrame(rect, height, spacing, k), fill).Clip().RightEdge() + spacing
            == SlotFrame(rect, height, spacing, k + 1).x
    ensures 0.0 <= fill <= 1.0 ==>
              SlotFrame(rect, height, spacing, k).x <= StarSlot(SlotFrame(rect, height, spacing, k), fill).Clip().x
  {
    SlotAdvance(rect, height, spacing, k);
    if 0.0 <= fill {
      MulMonotone(0.0, fill, AbsReal(height));
    }
  }

  /**
   The row with its half-spacing margins on both sides spans
   `starCount * (|height| + starSpacing)`: exactly the intrinsic width for a
   nonnegative `height`, and more than it for a negative one.
   */
  lemma RowSpansIntrinsicWidth(v: View, rect: Rect)
    requires 0 < v.starCount
    ensures SlotFrame(rect, v.height, v.starSpacing, v.starCount - 1).x + AbsReal(v.height) + v.starSpacing / 2.0 - rect.x
            == v.starCount as real * (AbsReal(v.height) + v.starSpacing)
    ensures 0.0 <= v.height ==>
              SlotFrame(rect, v.height, v.starSpacing, v.starCount - 1).RightEdge() + v.starSpacing / 2.0 - rect.x
              == IntrinsicContentSize(v).width
    ensures v.height < 0.0 ==>
              IntrinsicContentSize(v).width
              < SlotFrame(rect, v.height, v.starSpacing, v.starCount - 1).x + AbsReal(v.height) + v.starSpacing / 2.0 - rect.x
  {
    var n := v.starCount as real;
    var a := AbsReal(v.height);
    var sp := v.starSpacing;
    var last := SlotFrame(rect, v.height, sp, v.starCount - 1);
    assert last.x - rect.x == sp / 2.0 + (n - 1.0) * (a + sp);
    assert (n - 1.0) * (a + sp) + a + sp == n * (a + sp);
    assert IntrinsicContentSize(v).width == n * (v.height + sp);
    if v.height < 0.0 {
      assert n * (a + sp) - n * (v.height + sp) == n * (2.0 * a);
      assert 0.0 < n * (2.0 * a);
    }
  }

  /** The sum of the fills of a row of slots: how many stars' worth of paint it shows. */
  function TotalFill(slots: seq<StarSlot>): real
  {
    if |slots| == 0 then 0.0 else TotalFill(slots[..|slots| - 1]) + slots[|slots| - 1].fill
  }

  function PrefixFill(c: StarCounts, partial: real, k: int): real
  {
    (if k < c.complete then k else c.complete) as real
    + (if c.incomplete == 1 && c.complete < k then partial else 0.0)
  }

  lemma {:induction false} TotalFillOfPrefix(slots: seq<StarSlot>, c: StarCounts, partial: real, rect: Rect, height: real, spacing: real, k: nat)
    requires Drawable(c) && c.incomplete <= 1
    requires LaidOut(slots, c, partial, rect, height, spacing)
    requires k <= |slots|
    ensures TotalFill(slots[..k]) == PrefixFill(c, partial, k)
  {
    if k > 0 {
      assert slots[..k][..k - 1] == slots[..k - 1];
      TotalFillOfPrefix(slots, c, partial, rect, height, spacing, k - 1);
      assert slots[..k][k - 1] == slots[k - 1];
    }
  }

  /** A laid-out row of a nonnegative rating shows exactly the rating's worth of paint. */
  lemma TotalFillIsRating(slots: seq<StarSlot>, rating: real, starCount: int, rect: Rect, height: real, spacing: real)
    requires 0.0 <= rating <= starCount as real
    requires LaidOut(slots, Partition(rating, starCount), TruncFrac(rating), rect, height, spacing)
    ensures TotalFill(slots) == rating
  {
    var c := Partition(rating, starCount);
    TotalFillOfPrefix(slots, c, TruncFrac(rating), rect, height, spacing, |slots|);
    assert slots[..|slots|] == slots;
  }

  /** `draw` exactly as written: it traps unless every count is nonnegative. */
  method DrawAsWritten(v: View, rect: Rect) returns (drawn: View, slots: seq<StarSlot>)
    requires v.starCount != 0 && StepPerStar(v) != 0
    requires Drawable(Partition(StarRating(v), v.starCount))
    ensures drawn == v.(progress := ClampProgress(v))
    ensures LaidOut(slots, Partition(StarRating(v), v.starCount), TruncFrac(StarRating(v)), rect, v.height, v.starSpacing)
    ensures |slots| == v.starCount
  {
    var r := ReturnStarRating(v);
    drawn := r.0;
    var rating := r.1.value;
    slots := LayOutSlots(Partition(rating, v.starCount), TruncFrac(rating), rect, v.height, v.starSpacing);
  }

  /**
   With `maximumValue = 10` and `starCount = 3` the step is 3, a full
   progress of 10 gives the rating 10/3, and `draw` is left with
   `3 - 3 - 1 = -1` empty stars: the range `0 ..< -1` traps.
   */
  lemma UnevenMaximumBreaksRow()
    ensures var v := DefaultView(Rect(0.0, 0.0, 132.0, 44.0)).(starCount := 3, progress := 10);
            && StepPerStar(v) == 3
            && StarRating(v) == 10.0 / 3.0
            && Partition(StarRating(v), 3) == StarCounts(3, 1, -1)
            && !Drawable(Partition(StarRating(v), 3))
  {
    var v := DefaultView(Rect(0.0, 0.0, 132.0, 44.0)).(starCount := 3, progress := 10);
    assert StepPerStar(v) == 3;
    assert Trunc(10.0 / 3.0) == 3;
  }

  /** The rating capped into `[0, starCount]`, so that the row always holds `starCount` stars. */
  function CapRating(rating: real, starCount: int): (r: real)
    requires 0 <= starCount
    ensures 0.0 <= r <= starCount as real
    ensures 0.0 <= rating <= starCount as real ==> r == rating
  {
    if rating < 0.0 then 0.0 else if rating > starCount as real then starCount as real else rating
  }

  /**
   Where `draw` as written does not trap (a rating in `(-1, starCount]`, by
   `DrawableIffRatingInRange`), capping the rating changes neither the counts
   nor the partial fill.
   */
  lemma CappedAgreesWhereDrawable(rating: real, starCount: int)
    requires 0 <= starCount
    requires -1.0 < rating <= starCount as real
    ensures Partition(CapRating(rating, starCount), starCount) == Partition(rating, starCount)
    ensures Partition(rating, starCount).incomplete == 1 ==> TruncFrac(CapRating(rating, starCount)) == TruncFrac(rating)
  {
    if rating < 0.0 {
      assert Trunc(rating) == 0;
    }
  }

  /**
   `draw` with the rating capped to the star count: the clamped view and the
   row of slots.  The row always has `starCount` slots, fills never increase
   from left to right, and the fills add up to the capped rating.
   */
  method Draw(v: View, rect: Rect) returns (drawn: View, slots: seq<StarSlot>)
    requires 0 < v.starCount && StepPerStar(v) != 0
    ensures drawn == v.(progress := ClampProgress(v))
    ensures var rating := CapRating(StarRating(v), v.starCount);
            LaidOut(slots, Partition(rating, v.starCount), TruncFrac(rating), rect, v.height, v.starSpacing)
    ensures |slots| == v.starCount
    ensures forall k :: 0 <= k < |slots| ==> 0.0 <= slots[k].fill <= 1.0
    ensures forall j, k :: 0 <= j <= k < |slots| ==> slots[k].fill <= slots[j].fill
    ensures TotalFill(slots) == CapRating(StarRating(v), v.starCount)
  {
    var r := ReturnStarRating(v);
    drawn := r.0;
    var rating := CapRating(r.1.value, v.starCount);
    var c := Partition(rating, v.starCount);
    slots := LayOutSlots(c, TruncFrac(rating), rect, v.height, v.starSpacing);
    forall j, k | 0 <= j <= k < |slots|
      ensures slots[k].fill <= slots[j].fill
    {
      FillsNonIncreasing(c, TruncFrac(rating), j, k);
    }
    TotalFillIsRating(slots, rating, v.starCount, rect, v.height, v.starSpacing);
  }

  /**
   When `starCount` divides `maximumValue` and the minimum is not negative,
   the rating always lies in `[0, starCount]`, so `draw` as written never traps.
   */
  lemma EvenMaximumIsDrawable(v: View)
    requires 0 < v.starCount && 0 <= v.minimumValue <= v.maximumValue
    requires v.maximumValue % v.starCount == 0 && v.starCount <= v.maximumValue
    ensures StepPerStar(v) != 0
    ensures 0.0 <= StarRating(v) <= v.starCount as real
    ensures Drawable(Partition(StarRating(v), v.starCount))
  {
    var step := StepPerStar(v);
    StepPerStarQuotient(v);
    assert v.maximumValue == v.starCount * step by {
      var q := v.maximumValue / v.starCount;
      assert v.maximumValue == v.starCount * q;
      assert v.maximumValue - v.starCount * step == v.starCount * (q - step);
    }
    var p := ClampProgress(v) as real;
    var s := step as real;
    assert 0.0 <= p <= v.starCount as real * s;
    assert p / s <= v.starCount as real by {
      assert p <= v.starCount as real * s;
    }
  }
}

=== FILE: score_view.dfy ===
/**
 The read-only scored-star display (`UIScoreView`): a row of `starCount`
 full stars filling the drawing rectangle, each with a score and a title
 supplied by an optional delegate, and a height constraint that keeps the
 slots square.
 */
module ScoreView {
  import opened Geometry
  import opened Options
  import Decimal

  /** The two lookups of `UIScoreViewDelegate`, by star index. */
  datatype Delegate = Delegate(scoreForStarAtIndex: int -> int, titleForStarAtIndex: int -> string)

  /** The view's star count, its (weak, optional) delegate and its bounds. */
  datatype View = View(starCount: int, delegate: Option<Delegate>, bounds: Rect)

  /** The score shown under star `index`: the delegate's, or 0 without a delegate. */
  function Score(v: View, index: int): (s: int)
    ensures v.delegate.None? ==> s == 0
    ensures v.delegate.Some? ==> s == v.delegate.value.scoreForStarAtIndex(index)
  {
    match v.delegate
    case None => 0
    case Some(d) => d.scoreForStarAtIndex(index)
  }

  /** The title shown over star `index`: the delegate's, or the empty string without a delegate. */
  function Title(v: View, index: int): (t: string)
    ensures v.delegate.None? ==> t == ""
    ensures v.delegate.Some? ==> t == v.delegate.value.titleForStarAtIndex(index)
  {
    match v.delegate
    case None => ""
    case Some(d) => d.titleForStarAtIndex(index)
  }

  /**
   The constant of the height constraint `layoutSubviews` installs: the
   width of one star slot, so that a view of that height has square slots.
   */
  function HeightConstant(v: View): (h: real)
    requires v.starCount != 0
    ensures h * v.starCount as real == v.bounds.Width()
    ensures 0 < v.starCount ==> 0.0 <= h
  {
    v.bounds.Width() / v.starCount as real
  }

  /** A text label: the rectangle it is drawn in, its font size and its text. */
  datatype Label = Label(rect: Rect, fontSize: real, text: string)

  /**
   `drawTitleInFrame`: the title in a font one eighth of the slot's
   standardized height, in a rectangle moved 5 points down from the slot's
   origin and sized by the slot's standardized size.
   */
  function TitleLabel(v: View, frame: Rect, index: int): (l: Label)
    ensures l.fontSize * 8.0 == frame.Height()
    ensures l.rect.x == frame.x && l.rect.y == frame.y + 5.0
    ensures l.rect.width == frame.Width() && l.rect.height == frame.Height()
    ensures 0.0 <= frame.width && 0.0 <= frame.height ==> l.rect == frame.(y := frame.y + 5.0)
    ensures l.text == Title(v, index)
  {
    Label(Rect(frame.x, frame.y + 5.0, frame.Width(), frame.Height()), frame.Height() / 8.0, Title(v, index))
  }

  /**
   `drawScoreInFrame`: the score's decimal text in a font of half the slot's
   standardized height less 10, drawn so that its rectangle starts a quarter
   of that height below the slot's top edge.
   */
  function ScoreLabel(v: View, frame: Rect, index: int): (l: Label)
    ensures l.fontSize == frame.Height() / 2.0 - 10.0
    ensures l.rect.y == frame.MinY() + frame.Height() / 4.0
    ensures l.rect.x == frame.x && l.rect.width == frame.Width() && l.rect.height == frame.Height()
    ensures Decimal.Parse(l.text) == Some(Score(v, index))
  {
    var fontHeight := frame.Height() / 2.0 - 10.0;
    var yOffset := frame.MidY() - fontHeight / 2.0 - 5.0;
    Decimal.DecimalTextRoundTrip(Score(v, index));
    Label(Rect(frame.x, yOffset, frame.Width(), frame.Height()), fontHeight, Decimal.DecimalText(Score(v, index)))
  }

  /** Without a delegate every star shows the score "0" and an empty title. */
  lemma NoDelegateDefaults(v: View, frame: Rect, index: int)
    requires v.delegate.None?
    ensures ScoreLabel(v, frame, index).text == "0"
    ensures TitleLabel(v, frame, index).text == ""
  {
  }

  /** One drawn star: its slot, its fill fraction, its index and its two labels. */
  datatype ScoreSlot = ScoreSlot(frame: Rect, progress: real, index: int, score: Label, title: Label)

  /** Slot `i` of a row of `starCount` equal slots across the standardized width of `rect`. */
  function SlotFrame(rect: Rect, starCount: int, i: int): Rect
    requires starCount != 0
  {
    Rect(rect.x + i as real * (rect.Width() / starCount as real), rect.y, rect.Width() / starCount as real, rect.height)
  }

  /** The star `draw` paints in slot `i`: a full star with the labels for index `i`. */
  function ScoreSlotAt(v: View, rect: Rect, i: int): ScoreSlot
    requires v.starCount != 0
  {
    var frame := SlotFrame(rect, v.starCount, i);
    ScoreSlot(frame, 1.0, i, ScoreLabel(v, frame, i), TitleLabel(v, frame, i))
  }

  /**
   `draw`: `starCount` stars left to right, each a full star (progress 1)
   in its slot, with the score and title looked up for its index.
   */
  method Draw(v: View, rect: Rect) returns (slots: seq<ScoreSlot>)
    requires 0 <= v.starCount
    ensures |slots| == v.starCount
    ensures forall i :: 0 <= i < |slots| ==> slots[i].frame == SlotFrame(rect, v.starCount, i)
    ensures forall i :: 0 <= i < |slots| ==> slots[i].progress == 1.0 && slots[i].index == i
    ensures forall i :: 0 <= i < |slots| ==>
              slots[i].score == ScoreLabel(v, slots[i].frame, i) && slots[i].title == TitleLabel(v, slots[i].frame, i)
  {
    slots := [];
    if v.starCount == 0 {
      return;
    }
    var frame := rect.(width := rect.Width() / v.starCount as real);
    var index := 0;
    while index < v.starCount
      invariant 0 <= index <= v.starCount
      invariant |slots| == index
      invariant frame == SlotFrame(rect, v.starCount, index)
      invariant forall i :: 0 <= i < index ==> slots[i] == ScoreSlotAt(v, rect, i)
    {
      slots := slots + [ScoreSlot(frame, 1.0, index, ScoreLabel(v, frame, index), TitleLabel(v, frame, index))];
      SlotAdvance(rect, v.starCount, index);
      frame := frame.(x := frame.x + frame.Width());
      index := index + 1;
    }
  }

  /** The next slot starts one standardized slot width right of the current one. */
  lemma SlotAdvance(rect: Rect, starCount: int, i: int)
    requires 0 < starCount
    ensures var f := SlotFrame(rect, starCount, i);
            SlotFrame(rect, starCount, i + 1) == f.(x := f.x + f.Width())
  {
    var w := rect.Width() / starCount as real;
    assert 0.0 <= w;
    assert (i + 1) as real * w == i as real * w + w;
  }

  /**
   The slots tile the rectangle: the first starts at its left edge, each
   ends where the next begins, and the last ends at its right edge.
   */
  lemma SlotsTileRect(rect: Rect, starCount: int, i: int)
    requires 0 < starCount && 0 <= i < starCount
    ensures SlotFrame(rect, starCount, 0).x == rect.x
    ensures SlotFrame(rect, starCount, i).RightEdge() == SlotFrame(rect, starCount, i + 1).x
    ensures SlotFrame(rect, starCount, starCount - 1).RightEdge() == rect.x + rect.Width()
    ensures 0.0 <= rect.width ==> SlotFrame(rect, starCount, starCount - 1).RightEdge() == rect.MaxX()
  {
    var w := rect.Width() / starCount as real;
    assert (i + 1) as real * w == i as real * w + w;
    assert (starCount - 1) as real * w + w == starCount as real * w;
  }

  /** Once the height constraint holds, every slot of the bounds is a square. */
  lemma ConstrainedSlotsAreSquare(v: View, i: int)
    requires 0 < v.starCount
    requires v.bounds.height == HeightConstant(v)
    ensures SlotFrame(v.bounds, v.starCount, i).width == SlotFrame(v.bounds, v.starCount, i).height
    ensures SlotFrame(v.bounds, v.starCount, i).Width() == SlotFrame(v.bounds, v.starCount, i).Height()
  {
  }

  /** The demo screen's delegate: star `i` scores `i` and is titled "Title". */
  function DemoDelegate(): Delegate
  {
    Delegate(i => i, i => "Title")
  }

  /** With the demo delegate, star 12 shows the text "12" under the title "Title". */
  lemma DemoDelegateLabels(v: View, frame: Rect)
    requires v.delegate == Some(DemoDelegate())
    ensures ScoreLabel(v, frame, 12).text == "12"
    ensures TitleLabel(v, frame, 12).text == "Title"
  {
    assert Decimal.NatText(12) == Decimal.NatText(1) + [Decimal.DigitChar(2)];
  }
}

=== FILE: star_view.dfy ===
/**
 The single-star indicator (`UIStarView`): one star filling its bounds,
 painted up to the fraction `progress`, with a fixed square preferred size.
 */
module StarView {
  import opened Geometry

  /** The view's fill fraction, its bounds and its preferred side length. */
  datatype View = View(progress: real, bounds: Rect, defaultDimension: real)

  /** The preferred side length a new view starts with. */
  const DefaultDimension: real := 44.0

  function NewView(bounds: Rect): (v: View)
    ensures v.progress == 0.0 && v.defaultDimension == DefaultDimension
  {
    View(0.0, bounds, DefaultDimension)
  }

  /** The preferred size: a square of side `defaultDimension`. */
  function IntrinsicContentSize(v: View): (s: Size)
    ensures s.width == s.height == v.defaultDimension
  {
    Size(v.defaultDimension, v.defaultDimension)
  }

  /** A new view prefers 44 x 44 points. */
  lemma NewViewIs44Square(bounds: Rect)
    ensures IntrinsicContentSize(NewView(bounds)) == Size(44.0, 44.0)
  {
  }

  /**
   The clip rectangle `drawStar(fillWithProgress:)` computes from the bounds
   and the unclamped `progress`: the right-hand strip that stays unfilled.
   Its width is the raw `bounds.size.width`, not the standardized `width`.
   */
  function StarClip(v: View): (clip: Rect)
    ensures clip.y == v.bounds.y && clip.height == v.bounds.height
    ensures clip.RightEdge() == v.bounds.RightEdge()
    ensures clip.x - v.bounds.x == v.progress * v.bounds.width
    ensures v.progress == 0.0 ==> clip == v.bounds
    ensures v.progress == 1.0 ==> clip.width == 0.0
  {
    FillClip(v.bounds, v.bounds.width, v.progress)
  }

  /** Raising `progress` never widens the unfilled strip of a star with nonnegative width. */
  lemma StarClipShrinks(v: View, p: real)
    requires 0.0 <= v.bounds.width && v.progress <= p
    ensures StarClip(v.(progress := p)).width <= StarClip(v).width
    ensures StarClip(v).x <= StarClip(v.(progress := p)).x
  {
    FillClipShrinks(v.bounds, v.bounds.width, v.progress, p);
  }

  /**
   `progress` is used unclamped: above 1 the clip has negative width, below
   0 it starts left of the bounds and is wider than them.
   */
  lemma StarClipUnclamped(v: View)
    requires 0.0 < v.bounds.width
    ensures 1.0 < v.progress ==> StarClip(v).width < 0.0
    ensures v.progress < 0.0 ==> StarClip(v).x < v.bounds.x && v.bounds.width < StarClip(v).width
  {
    FillClipUnclamped(v.bounds, v.bounds.width, v.progress);
  }
}

=== FILE: swift_numeric.dfy ===
/**
 Swift's numeric conversions that the views rely on, written out exactly.

 - `Int(x)` for a floating-point `x` truncates toward zero.
 - `a / b` on `Int` truncates toward zero (Dafny's own `/` is Euclidean).

 Swift integers are 64 bits wide; the model uses unbounded integers and does
 not model the overflow traps.
 */
module SwiftNumeric {

  function Abs(a: int): (r: nat)
    ensures r == a || r == -a
  {
    if a < 0 then -a else a
  }

  /** `Int(x)`: the integer part of `x`, rounding toward zero. */
  function Trunc(x: real): (r: int)
    ensures 0.0 <= x ==> r as real <= x < r as real + 1.0
    ensures x < 0.0 ==> r as real - 1.0 < x <= r as real
    ensures 0.0 <= x ==> r == x.Floor
  {
    if x >= 0.0 then x.Floor else -((-x).Floor)
  }

  /** The fractional part left over by `Int(x)`: `x - CGFloat(Int(x))`. */
  function TruncFrac(x: real): (f: real)
    ensures 0.0 <= x ==> 0.0 <= f < 1.0
    ensures x < 0.0 ==> -1.0 < f <= 0.0
    ensures Trunc(x) as real + f == x
  {
    x - Trunc(x) as real
  }

  /** Truncation is monotone. */
  lemma TruncMonotone(x: real, y: real)
    requires x <= y
    ensures Trunc(x) <= Trunc(y)
  {
    if 0.0 <= x {
      assert Trunc(x) as real <= x <= y < Trunc(y) as real + 1.0;
    } else if y < 0.0 {
      assert Trunc(x) as real - 1.0 < x <= y <= Trunc(y) as real;
    }
  }

  /** An integral value is its own truncation. */
  lemma TruncOfInt(n: int)
    ensures Trunc(n as real) == n
  {
  }

  /** Swift's `a / b` on `Int`: the quotient rounded toward zero. */
  function TruncDiv(a: int, b: int): int
    requires b != 0
  {
    if b > 0 then
      if a >= 0 then a / b else -((-a) / b)
    else
      if a >= 0 then -(a / (-b)) else (-a) / (-b)
  }

  /**
   The truncated quotient leaves a remainder smaller than the divisor in
   magnitude and of the same sign as the dividend.
   */
  lemma TruncDivRemainder(a: int, b: int)
    requires b != 0
    ensures Abs(a - b * TruncDiv(a, b)) < Abs(b)
    ensures 0 <= a ==> 0 <= a - b * TruncDiv(a, b)
    ensures a <= 0 ==> a - b * TruncDiv(a, b) <= 0
  {
    if b > 0 {
      if a >= 0 {
        EuclidRemainder(a, b);
      } else {
        EuclidRemainder(-a, b);
        NegateQuotient(-a, b, (-a) / b);
      }
    } else {
      if a >= 0 {
        EuclidRemainder(a, -b);
        NegateDivisor(a, b, a / (-b));
      } else {
        EuclidRemainder(-a, -b);
        NegateBoth(a, b, (-a) / (-b));
      }
    }
  }

  lemma EuclidRemainder(n: int, d: int)
    requires 0 <= n && 0 < d
    ensures 0 <= n - d * (n / d) < d
  {
  }

  lemma NegateQuotient(n: int, d: int, q: int)
    ensures (-n) - d * (-q) == -(n - d * q)
  {
  }

  lemma NegateDivisor(n: int, b: int, q: int)
    ensures n - b * (-q) == n - (-b) * q
  {
  }

  lemma NegateBoth(a: int, b: int, q: int)
    ensures a - b * q == -((-a) - (-b) * q)
  {
  }

  /** A positive divisor and a nonnegative dividend: the quotient times the divisor never exceeds the dividend. */
  lemma TruncDivBound(a: int, b: int)
    requires 0 <= a && 0 < b
    ensures 0 <= TruncDiv(a, b)
    ensures 0 <= b * TruncDiv(a, b) <= a
  {
    TruncDivRemainder(a, b);
  }
}
